=== FILE: README.md ===
# Letter playground scene controller, modelled in Dafny

The demo in `src/script.js` drops a rigid "letter" body into a physics world for each letter
key typed, turns the newest letter into a floating "balloon" on backspace, eases the engine's
time scale toward a target that flips between normal speed (1) and bullet time (0.05) every
two wall-clock seconds, pushes letters and near-floor bodies with a scatter force at each
flip, and rebuilds its four boundary walls when the window is resized.

This project models the controller that sits on top of the physics engine, as pure
transitions over an immutable `State`:

- the spawn cursor (`cursor`), the ordered registry of typed letters (`registry`, the ids of
  the bodies in `wordBodies`), the world's bodies (`world`), the viewport size, the time-scale
  target, the engine's current time scale and the time of the last flip;
- `KeyDown` (space / backspace / letter / anything else), `AfterUpdate` (tween, flip,
  scatter-target selection, despawn pass), `ExplosionTargets`, `ResetScene` and `Resize`.

A body is a record holding only the fields the controller reads or writes; its `id` stands
for the identity of the engine's body object, so the registry is a sequence of ids into the
world. Coordinates and scales are exact reals. Randomness (the backspace velocity jitter), the
wall clock (`now`) and the engine's reported step length (`delta`) are parameters. The
engine's motion of bodies between two handler calls is the `Integrate` transition: it may move
any dynamic body but changes no field the controller owns.

Files: `seqs.dfy` (order-preserving filter), `options.dfy`, `scene.dfy` (bodies, walls,
lookup by identity), `cursor.dfy`, `keys.dfy` (key classification), `timescale.dfy`
(tween and flip), `controller.dfy` (state and transitions), `invariants.dfy` (what holds in
every reachable state), `scenarios.dfy` (whole interactions).

Some behaviours of the code are easy to misread; the model follows the code:

- Backspace sets the popped body's gravity scale to 0 and removes it from the registry, while
  the despawn pass only looks at registry entries with a negative gravity scale. So balloons
  are never collected: `Invariants.BalloonsNeverDespawn` proves the despawn pass removes
  nothing in any reachable state.
- The letter test is a substring test on the upper-cased key, not a single-letter test. The
  empty key and runs of consecutive letters such as `"ab"` also spawn a body (labelled `""`
  or `"AB"`). Upper-casing follows the full Unicode mapping, so the dotless `ı`, the long
  `ſ` and the ligatures `ﬅ` and `ﬆ` also spawn a body (labelled `"I"`, `"S"`, `"ST"`).
  `Keys.SingleCharacterKeys` pins down the one-character case.
- On resize the old walls are matched against the edges of the NEW size: an old wall
  survives unless its centre lies on an edge of the new size. Growing the window in both
  directions leaks the old bottom and right walls (`Scenarios.ResizeLeaksOldWalls`); growing
  only the width removes the old bottom wall, whose centre is at the unchanged height, and
  leaks only the old right wall (`Scenarios.ResizeWiderOnly`). Resizing to the same size does
  replace exactly four walls (`Scenarios.ResizeTwiceSameSize`).
- The cursor is kept within `[0.1 * width, width - 50]` only when `0.1 * width <= width - 50`.
  In a narrower window the home position itself lies past the limit (`Cursor.InBand`).
- `resetScene` is defined but never called in the source. It is modelled all the same.

## Model

| member | source | states |
|---|---|---|
| Cursor.Advance | src/script.js:217-220 | moving the cursor lands it `step` further right unless that passes `width - 50`, in which case it lands at `0.1 * width`; a non-negative step keeps the cursor in its band |
| Keys.IncludesIffOccurs | src/script.js:207 | the key test is a substring test: the alphabet "includes" a string exactly when it occurs at some index |
| Keys.Classify | src/script.js:179-207 | space and backspace are recognised on the raw key; otherwise the key is a letter exactly when its upper-case form occurs in the alphabet, and the letter's text is that upper-case form |
| Keys.SingleCharacterKeys | src/script.js:179-207 | a one-character key spawns a letter exactly when it is a Latin letter of either case, `ı`, `ſ`, `ﬅ` or `ﬆ`, with its upper-case form as the label (`"ST"` for the two ligatures) |
| TimeScale.StepSeconds | src/script.js:130 | the step length in seconds is `delta / 1000`, or 1/60 s when `delta` is zero |
| TimeScale.Tween | src/script.js:134 | one easing step multiplies the gap to the target by `1 - 3 dt` |
| TimeScale.TweenBetween | src/script.js:134 | with `0 <= 3 dt <= 1` an easing step never overshoots: the new scale lies between the old scale and the target |
| TimeScale.NextScale | src/script.js:133-137 | while the pointer button is held the scale is forced to 1; otherwise it eases toward the target |
| TimeScale.Flip | src/script.js:143-147 | the new target is 1 exactly when the old one was below 1, and is always 1 or 0.05 |
| TimeScale.FlipSwaps | src/script.js:126-147 | starting from target 1, flipping alternates the two values |
| TimeScale.SettleGap | src/script.js:134 | after `n` easing steps the gap to a fixed target is the initial gap times `(1 - 3 dt)^n` |
| TimeScale.SettleConverges | src/script.js:134 | with `0 < 3 dt <= 1` the gap after `n` steps is at most the initial gap over `1 + 3 n dt`, so the scale converges to the target |
| TimeScale.FlipCadence | src/script.js:140-153 | over clock readings that never go backwards the target flips at most once per 2000 ms of elapsed wall-clock time |
| Invariants.TargetChangesCounted | src/script.js:140-153 | while the target is 1 or 0.05, the number of target changes over a run of step-handler calls equals the number of times the flip rule fires (`now - lastTime >= 2000`, then `lastTime := now`) |
| Invariants.StepFlipCadence | src/script.js:140-153 | over clock readings that never go backwards, the step handler changes the target at most once per 2000 ms of elapsed wall-clock time |
| TimeScale.FlipCadenceLower | src/script.js:140-153 | when consecutive clock readings are at most `gap` ms apart (and the first less than 2000 + `gap` ms after the last flip), the flips times (2000 + `gap`) exceed the elapsed time minus 2000: each flip covers less than 2000 + `gap` ms, and less than 2000 ms pass after the last one |
| TimeScale.PeriodsProduct | src/script.js:140-153 | `n` spans of length `p` laid end to end measure `n * p`, which turns the additive form of the cadence bounds into the product form |
| Invariants.StepFlipCadenceLower | src/script.js:140-153 | the same lower bound for the step handler itself: the target changes of successive step-handler calls, as spans of 2000 + `gap` ms laid end to end, exceed the elapsed time minus 2000 |
| Scene.Walls | src/script.js:298-315 | the four walls are static, have fresh consecutive ids, and each lies on an edge of the viewport: top and bottom centred at x = width/2 with size width x 50, right and left centred at y = height/2 with size 50 x height |
| Controller.PressSpace | src/script.js:180-188 | a space moves the cursor 90 right, or back to `0.1 * width` past `width - 50`, and changes nothing else |
| Controller.PressLetter | src/script.js:207-221 | a letter appends one fresh dynamic body to world and registry, leaving both prefixes unchanged; it carries the letter as label, gravity scale 1, air friction 0.005, size 42 x 66, position (old cursor, 0.3 * height); the cursor moves 70 with the same wrap |
| Controller.PressBackspace | src/script.js:189-205 | on a non-empty registry the last entry is removed and the rest kept in order; its body stays in the world with gravity scale 0, air friction 0.01, x-velocity plus the jitter and y-velocity minus 10; every other body is unchanged; on an empty registry nothing changes |
| Controller.KeyDown | src/script.js:178-222 | each key does exactly one of space, backspace, letter; any other key changes nothing |
| Controller.ExplosionTargets | src/script.js:107-115 | the scattered bodies are exactly the dynamic world bodies that are registered letters or lie at or below `height - 100`, in world order |
| Controller.DespawnRemovesExactlyExpired | src/script.js:157-163 | the despawn pass removes exactly the registered bodies with negative gravity scale above `y = -50`, from registry and world; survivors keep their order, so a registry without repeats keeps none; no other body is touched |
| Controller.DespawnPass | src/script.js:157-163 | the backward scan that splices the registry and removes bodies from the world computes the order-preserving filters |
| Controller.AfterUpdate | src/script.js:129-164 | a step eases (or resets) the scale; the target flips, `lastTime` becomes `now` and the scatter targets are selected exactly when `now - lastTime >= 2000`; then the despawn pass runs; cursor, size and ids are untouched |
| Controller.ResetScene | src/script.js:166-175 | a reset keeps exactly the static bodies, in order, empties the registry and sends the cursor to `0.1 * width` |
| Controller.Resize | src/script.js:284-323 | a resize keeps every body except the static ones on an edge of the new viewport, in order, then appends the four new walls; every dynamic body survives; the cursor goes to `0.1 * newWidth` |
| Invariants.InitInv | src/script.js:30-127 | the scene as set up satisfies the invariant: cursor in band, target 1, unique fresh ids, empty registry |
| Invariants.KeyDownInv | src/script.js:178-222 | key presses preserve the invariant |
| Invariants.DespawnInert | src/script.js:157-163 | under the invariant no registered letter is a balloon, so the despawn pass changes nothing |
| Invariants.AfterUpdateInv | src/script.js:129-164 | engine steps preserve the invariant |
| Invariants.ResetSceneInv | src/script.js:166-175 | a scene reset preserves the invariant |
| Invariants.ResizeInv | src/script.js:284-323 | a resize preserves the invariant: every registered letter survives it |
| Invariants.Reachable | src/script.js:30-323 | every state reachable by key presses, steps, resets, resizes and engine motion satisfies the invariant |
| Invariants.CursorBounds | src/script.js:182-185 | in every reachable state the cursor is at least `0.1 * width`, and at most `width - 50` whenever `0.1 * width <= width - 50` |
| Invariants.TargetTwoValued | src/script.js:143-147 | in every reachable state the time-scale target is 1 or 0.05 |
| Invariants.BalloonsNeverDespawn | src/script.js:191-192 | in every reachable state the next step's despawn pass leaves registry and world as they were |
| Invariants.LettersAlwaysScatter | src/script.js:114-115 | under the invariant every registered letter is among the scatter targets |
| Scenarios.TypeAndDelete | src/script.js:207-217 | in an 800 x 600 window, "A" spawns at (80, 180), "b" spawns "B" at (150, 180), backspace pops "B" with gravity scale 0 and y-velocity lowered by 10 |
| Scenarios.RegistryCount | src/script.js:189-216 | after a run of keys the registry length is the letters typed minus the backspaces that found a letter to pop |
| Scenarios.ResizeTwiceSameSize | src/script.js:317-321 | a second resize to the same size removes exactly the four walls the first added and adds four new ones |
| Scenarios.ResizeSameSizeFromStart | src/script.js:317-321 | resizing the initial scene to its own size leaves exactly the four new walls |
| Scenarios.ResizeWiderOnly | src/script.js:317-320 | resizing 800 x 600 to 1000 x 600 removes the old top, bottom and left walls and keeps only the old right wall at (800, 300): five static bodies |
| Scenarios.ResizeLeaksOldWalls | src/script.js:317 | resizing 800 x 600 to 1000 x 700 keeps the old bottom and right walls: six static bodies |

## Left out

- Forces: the scatter force vectors (`src/script.js:112`, `:117-120`) and the upward force on a new balloon (`:193-196`) act through the engine's integration, which is not modelled. Only the selection of scatter targets is.
- The engine: integration, collisions, mass, and the mouse constraint (`:36-41`, `:250-260`). Their only trace is the `Integrate` transition and the pointer-button parameter.
- Material options other than air friction: friction 0.001, restitution 0.9, chamfer radius 8 (`:89-99`). The controller never reads them.
- Fill colours (`:202`, `:212-213`), the label-drawing render hook (`:225-247`), the renderer, pixel ratio, canvas sizing and `Render.lookAt` (`:44-61`, `:266-269`, `:287-295`).
- The optional wrap plugin and its bounds loop (`:4-12`, `:272-281`). The loop runs once at start-up, when only static walls exist.
- DOM plumbing and `preventDefault`, and `stop()` (`:330-333`).
- Upper-casing (`Keys.UpperOf`) maps only the ASCII lower-case letters and the four non-ASCII characters whose upper-case form occurs in the alphabet (`ı`, `ſ`, `ﬅ`, `ﬆ`). Every other character is kept as it is. That never changes whether a key spawns a body: neither such a character nor its real upper-case form (`é`/`É`, `ß`/`SS`, `ﬁ`/`FI`) is a substring of the alphabet. The full Unicode case table is out of scope.
- `event.delta`: only zero is modelled as falsy. An undefined or NaN delta is not.
- The step handler reads the clock twice (`:140`, `:153`). The model uses a single reading `now` for both.
- Floating-point rounding: every quantity is an exact real.
- Body ids are abstract. The initial walls get ids 0 to 3 and later bodies take the next free id. The engine's own counter also numbers composites.
- PressBackspace: the jitter is a parameter. The model does not enforce its range [-1, 1), which is a property of the random source.

=== FILE: controller.dfy ===
/** The scene controller: the state the demo keeps beside the physics engine and its five
    transitions (key press, engine step, scatter-target selection, scene reset, resize).
    Randomness and the clock are parameters; the engine's motion of bodies between steps is
    the `Integrate` transition. */
module Controller {
  import opened Options
  import opened Seqs
  import opened Scene
  import opened Cursor
  import opened Keys
  import opened TimeScale

  /** A letter is a 0.7 x 1.1 character cell rectangle. */
  const LetterExtent: Vec := Vec(CharWidth * 0.7, CharWidth * 1.1)

  /** Letters spawn at three tenths of the viewport height. */
  const SpawnHeightFraction: real := 0.3

  const LetterFrictionAir: real := 0.005
  const BalloonFrictionAir: real := 0.01

  /** Upward speed added to a body as it becomes a balloon. */
  const BalloonLift: real := 10.0

  /** Bodies this close to the bottom edge are scattered even when they are not letters. */
  const FloorBand: real := 100.0

  /** A balloon is collected once it is this far above the top edge. */
  const DespawnMargin: real := 50.0

  /** The controller's state. `registry` lists the ids of the typed letters, oldest first;
      `world` is every body of the engine's world in the engine's order; `nextId` is the
      engine's identity counter; `target` and `scale` are the time-scale target and the
      engine's current time scale; `lastTime` is the wall-clock time of the last flip. */
  datatype State = State(
    cursor: real,
    registry: seq<nat>,
    world: seq<Body>,
    width: real,
    height: real,
    target: real,
    scale: real,
    lastTime: real,
    nextId: nat)

  /** The scene as set up for a width x height window at wall-clock time `now`: the four walls,
      no letters, cursor at home, normal speed. */
  function Init(width: real, height: real, now: real): State {
    State(Home(width), [], Walls(width, height, 0), width, height, Normal, Normal, now, 4)
  }

  // ---------------------------------------------------------------- key handler

  /** A space moves the cursor 90 units (wrapping) and creates nothing. */
  function PressSpace(s: State): (r: State)
    ensures r == s.(cursor := r.cursor)
    ensures s.cursor + 90.0 <= s.width - 50.0 ==> r.cursor == s.cursor + 90.0
    ensures s.cursor + 90.0 > s.width - 50.0 ==> r.cursor == s.width * 0.1
  {
    s.(cursor := Advance(s.cursor, SpaceAdvance, s.width))
  }

  /** The body created for a letter key. */
  function NewLetter(s: State, text: string): Body {
    Body(s.nextId, text, false, Vec(s.cursor, s.height * SpawnHeightFraction), LetterExtent,
         Vec(0.0, 0.0), Some(1.0), LetterFrictionAir)
  }

  /** A letter key adds one fresh dynamic body at the cursor, to the world and to the end of the
      registry, and moves the cursor 70 units (wrapping). */
  function PressLetter(s: State, text: string): (r: State)
    ensures |r.registry| == |s.registry| + 1 && r.registry[..|s.registry|] == s.registry
    ensures |r.world| == |s.world| + 1 && r.world[..|s.world|] == s.world
    ensures r.registry[|s.registry|] == r.world[|s.world|].id == s.nextId
    ensures IdsBelow(s.world, s.nextId) ==>
              forall i :: 0 <= i < |s.world| ==> s.world[i].id != r.world[|s.world|].id
    ensures var b := r.world[|s.world|];
            && b.caption == text
            && !b.isStatic
            && b.gravityScale == Some(1.0)
            && b.position == Vec(s.cursor, 0.3 * s.height)
            && b.extent == Vec(42.0, 66.0)
            && b.velocity == Vec(0.0, 0.0)
            && b.frictionAir == 0.005
    ensures s.cursor + 70.0 <= s.width - 50.0 ==> r.cursor == s.cursor + 70.0
    ensures s.cursor + 70.0 > s.width - 50.0 ==> r.cursor == s.width * 0.1
    ensures r == s.(cursor := r.cursor, registry := r.registry, world := r.world, nextId := s.nextId + 1)
  {
    var b := NewLetter(s, text);
    s.(world := s.world + [b],
       registry := s.registry + [b.id],
       nextId := s.nextId + 1,
       cursor := Advance(s.cursor, LetterAdvance, s.width))
  }

  /** A body turned into a balloon: gravity off, more air friction, an upward kick and a
      random horizontal jitter on top of its current velocity. */
  function ToBalloon(b: Body, jitter: real): Body {
    b.(gravityScale := Some(0.0),
       frictionAir := BalloonFrictionAir,
       velocity := Vec(b.velocity.x + jitter, b.velocity.y - BalloonLift))
  }

  /** Backspace pops the newest letter off the registry and turns its body (which stays in the
      world) into a balloon; on an empty registry it does nothing. `jitter` is the random
      horizontal velocity change, drawn from [-1, 1). */
  function PressBackspace(s: State, jitter: real): (r: State)
    ensures |s.registry| == 0 ==> r == s
    ensures |s.registry| > 0 ==> r.registry == s.registry[..|s.registry| - 1]
    ensures r == s.(registry := r.registry, world := r.world)
    ensures |r.world| == |s.world|
    ensures forall i :: 0 <= i < |s.world| ==>
              && r.world[i].id == s.world[i].id
              && (|s.registry| == 0 || s.world[i].id != s.registry[|s.registry| - 1] ==> r.world[i] == s.world[i])
    ensures |s.registry| > 0 ==>
              forall i :: 0 <= i < |s.world| && s.world[i].id == s.registry[|s.registry| - 1] ==>
                && r.world[i].gravityScale == Some(0.0)
                && r.world[i].frictionAir == 0.01
                && r.world[i].velocity.x == s.world[i].velocity.x + jitter
                && r.world[i].velocity.y == s.world[i].velocity.y - 10.0
                && r.world[i].position == s.world[i].position
                && r.world[i].isStatic == s.world[i].isStatic
                && r.world[i].caption == s.world[i].caption
                && r.world[i].extent == s.world[i].extent
  {
    if |s.registry| == 0 then s
    else
      var last := s.registry[|s.registry| - 1];
      var world := seq(|s.world|, i requires 0 <= i < |s.world| =>
                         if s.world[i].id == last then ToBalloon(s.world[i], jitter) else s.world[i]);
      s.(registry := s.registry[..|s.registry| - 1], world := world)
  }

  /** The key handler: exactly one of space, backspace, letter, or nothing. */
  function KeyDown(s: State, key: string, jitter: real): (r: State)
    ensures key == " " ==> r == PressSpace(s)
    ensures key == "Backspace" ==> r == PressBackspace(s, jitter)
    ensures Classify(key).Letter? ==> r == PressLetter(s, Upper(key))
    ensures Classify(key).Ignored? ==> r == s
  {
    match Classify(key)
    case Space => PressSpace(s)
    case Backspace => PressBackspace(s, jitter)
    case Letter(text) => PressLetter(s, text)
    case Ignored => s
  }

  // ---------------------------------------------------------------- scatter targets

  /** A body receives a scatter force when it is dynamic and is either a typed letter or
      near the floor. */
  predicate Scatters(b: Body, registry: seq<nat>, height: real) {
    !b.isStatic && (b.id in registry || b.position.y >= height - FloorBand)
  }

  /** The bodies the periodic scatter pushes, in world order. */
  function ExplosionTargets(s: State): (r: seq<Body>)
    ensures forall i :: 0 <= i < |r| ==>
              && r[i] in s.world
              && !r[i].isStatic
              && (r[i].id in s.registry || r[i].position.y >= s.height - 100.0)
    ensures forall i :: 0 <= i < |s.world| ==>
              (!s.world[i].isStatic && (s.world[i].id in s.registry || s.world[i].position.y >= s.height - 100.0))
              ==> s.world[i] in r
    ensures IsSubsequence(r, s.world)
  {
    var keep := (b: Body) => Scatters(b, s.registry, s.height);
    FilterIsSubsequence(s.world, keep);
    Filter(s.world, keep)
  }

  // ---------------------------------------------------------------- despawn pass

  /** A balloon that has risen past the top edge by the despawn margin. */
  predicate Expired(b: Body) {
    b.gravityScale.Some? && b.gravityScale.value < 0.0 && b.position.y < -DespawnMargin
  }

  predicate ExpiredId(world: seq<Body>, id: nat) {
    var found := Lookup(world, id);
    found.Some? && Expired(found.value)
  }

  /** The registered ids the despawn pass removes. */
  function DoomedIds(world: seq<Body>, registry: seq<nat>): set<nat> {
    set id | id in registry && ExpiredId(world, id)
  }

  function SurvivingRegistry(world: seq<Body>, registry: seq<nat>): seq<nat> {
    Filter(registry, (id: nat) => !ExpiredId(world, id))
  }

  /** The world without the bodies whose identities are in `ids`. */
  function WithoutIds(world: seq<Body>, ids: set<nat>): seq<Body> {
    Filter(world, (b: Body) => b.id !in ids)
  }

  function SurvivingWorld(world: seq<Body>, registry: seq<nat>): seq<Body> {
    WithoutIds(world, DoomedIds(world, registry))
  }

  /** The despawn pass removes exactly the expired registered bodies, from the registry and
      from the world, keeps the order of what survives (so a registry without repeats stays
      without repeats), and touches no other body. */
  lemma DespawnRemovesExactlyExpired(world: seq<Body>, registry: seq<nat>)
    ensures forall id :: id in SurvivingRegistry(world, registry) <==> id in registry && !ExpiredId(world, id)
    ensures IsSubsequence(SurvivingRegistry(world, registry), registry)
    ensures Distinct(registry) ==> Distinct(SurvivingRegistry(world, registry))
    ensures forall b :: b in SurvivingWorld(world, registry) <==>
              b in world && !(b.id in registry && ExpiredId(world, b.id))
    ensures IsSubsequence(SurvivingWorld(world, registry), world)
    ensures UniqueIds(world) ==>
              forall i :: 0 <= i < |world| ==>
                (world[i] in SurvivingWorld(world, registry) <==> !(world[i].id in registry && Expired(world[i])))
  {
    var live := (id: nat) => !ExpiredId(world, id);
    var doomed := DoomedIds(world, registry);
    var kept := (b: Body) => b.id !in doomed;
    FilterIsSubsequence(registry, live);
    FilterIsSubsequence(world, kept);
    if Distinct(registry) {
      FilterDistinct(registry, live);
    }
    forall id ensures id in SurvivingRegistry(world, registry) <==> id in registry && !ExpiredId(world, id) {
      if id in registry && !ExpiredId(world, id) {
        var k :| 0 <= k < |registry| && registry[k] == id;
        assert live(registry[k]);
      }
    }
    forall b ensures b in SurvivingWorld(world, registry) <==> b in world && !(b.id in registry && ExpiredId(world, b.id)) {
      if b in world && !(b.id in registry && ExpiredId(world, b.id)) {
        var k :| 0 <= k < |world| && world[k] == b;
        assert kept(world[k]);
      }
    }
    if UniqueIds(world) {
      forall i | 0 <= i < |world| ensures ExpiredId(world, world[i].id) == Expired(world[i]) {
        LookupFinds(world, i);
      }
    }
  }

  lemma SurvivingRegistryStep(world: seq<Body>, registry: seq<nat>, j: nat)
    requires j < |registry|
    ensures SurvivingRegistry(world, registry[j..]) ==
              (if ExpiredId(world, registry[j]) then [] else [registry[j]]) + SurvivingRegistry(world, registry[j + 1..])
  {
    assert registry[j..][0] == registry[j];
    assert registry[j..][1..] == registry[j + 1..];
  }

  lemma DoomedIdsStep(world: seq<Body>, registry: seq<nat>, j: nat)
    requires j < |registry|
    ensures DoomedIds(world, registry[j..]) ==
              DoomedIds(world, registry[j + 1..]) + (if ExpiredId(world, registry[j]) then {registry[j]} else {})
  {
    assert forall id :: id in registry[j..] <==> id == registry[j] || id in registry[j + 1..] by {
      assert registry[j..] == [registry[j]] + registry[j + 1..];
    }
  }

  /** The world without the body (bodies) of the given identity. */
  function WithoutId(world: seq<Body>, id: nat): seq<Body> {
    Filter(world, (b: Body) => b.id != id)
  }

  /** One iteration of the backward scan keeps the scan's invariant: the unscanned prefix is
      untouched and the scanned suffix has been filtered. */
  lemma DespawnScanStep(world: seq<Body>, registry: seq<nat>, i: nat, w: seq<Body>, r: seq<nat>)
    requires i < |registry|
    requires r == registry[..i + 1] + SurvivingRegistry(world, registry[i + 1..])
    requires w == SurvivingWorld(world, registry[i + 1..])
    ensures i < |r| && r[i] == registry[i]
    ensures ExpiredId(world, registry[i]) ==>
              && r[..i] + r[i + 1..] == registry[..i] + SurvivingRegistry(world, registry[i..])
              && WithoutId(w, registry[i]) == SurvivingWorld(world, registry[i..])
    ensures !ExpiredId(world, registry[i]) ==>
              && r == registry[..i] + SurvivingRegistry(world, registry[i..])
              && w == SurvivingWorld(world, registry[i..])
  {
    DespawnRegistryStep(world, registry, i, r);
    DespawnWorldStep(world, registry, i, w);
  }

  /** The registry half of one scan iteration. */
  lemma DespawnRegistryStep(world: seq<Body>, registry: seq<nat>, i: nat, r: seq<nat>)
    requires i < |registry|
    requires r == registry[..i + 1] + SurvivingRegistry(world, registry[i + 1..])
    ensures i < |r| && r[i] == registry[i]
    ensures ExpiredId(world, registry[i]) ==>
              r[..i] + r[i + 1..] == registry[..i] + SurvivingRegistry(world, registry[i..])
    ensures !ExpiredId(world, registry[i]) ==>
              r == registry[..i] + SurvivingRegistry(world, registry[i..])
  {
    SurvivingRegistryStep(world, registry, i);
    assert registry[..i + 1] == registry[..i] + [registry[i]];
    if ExpiredId(world, registry[i]) {
      assert r[..i] == registry[..i];
      assert r[i + 1..] == SurvivingRegistry(world, registry[i + 1..]);
    }
  }

  /** The world half of one scan iteration. */
  lemma DespawnWorldStep(world: seq<Body>, registry: seq<nat>, i: nat, w: seq<Body>)
    requires i < |registry|
    requires w == SurvivingWorld(world, registry[i + 1..])
    ensures ExpiredId(world, registry[i]) ==> WithoutId(w, registry[i]) == SurvivingWorld(world, registry[i..])
    ensures !ExpiredId(world, registry[i]) ==> w == SurvivingWorld(world, registry[i..])
  {
    DoomedIdsStep(world, registry, i);
    var id := registry[i];
    var before := DoomedIds(world, registry[i + 1..]);
    var after := DoomedIds(world, registry[i..]);
    if ExpiredId(world, id) {
      FilterTwice(world, (b: Body) => b.id !in before, (b: Body) => b.id != id, (b: Body) => b.id !in after);
    } else {
      assert after == before;
    }
  }

  /** The despawn pass as the step handler runs it: a backward scan of the registry that
      splices out each expired entry and removes its body from the world. It computes the
      order-preserving filters above. */
  method DespawnPass(world: seq<Body>, registry: seq<nat>) returns (world': seq<Body>, registry': seq<nat>)
    ensures registry' == SurvivingRegistry(world, registry)
    ensures world' == SurvivingWorld(world, registry)
  {
    world' := world;
    registry' := registry;
    var i := |registry|;
    assert registry[i..] == [];
    FilterKeepsAll(world, (b: Body) => b.id !in DoomedIds(world, []));
    while i > 0
      invariant 0 <= i <= |registry|
      invariant registry' == registry[..i] + SurvivingRegistry(world, registry[i..])
      invariant world' == SurvivingWorld(world, registry[i..])
      decreases i
    {
      i := i - 1;
      DespawnScanStep(world, registry, i, world', registry');
      var id := registry'[i];
      if ExpiredId(world, id) {
        world' := WithoutId(world', id);
        registry' := registry'[..i] + registry'[i + 1..];
      }
    }
    assert registry[0..] == registry;
  }

  // ---------------------------------------------------------------- step handler

  /** What one engine step produces: the next state and the bodies that received a scatter
      force during it (empty unless the target flipped). */
  datatype Stepped = Stepped(next: State, scattered: seq<Body>)

  /** The engine's after-update handler, given the reported step length `delta` (ms), the
      pointer button and the wall-clock time `now`: ease the time scale, flip the target and
      scatter bodies once per period, then run the despawn pass. */
  function AfterUpdate(s: State, delta: real, button: int, now: real): (r: Stepped)
    ensures button != NoButton ==> r.next.scale == 1.0
    ensures button == NoButton ==>
              r.next.scale - s.target == (1.0 - 3.0 * StepSeconds(delta)) * (s.scale - s.target)
    ensures now - s.lastTime >= 2000.0 ==>
              && r.next.target == (if s.target < 1.0 then 1.0 else 0.05)
              && r.next.lastTime == now
              && r.scattered == ExplosionTargets(s)
    ensures now - s.lastTime < 2000.0 ==>
              r.next.target == s.target && r.next.lastTime == s.lastTime && r.scattered == []
    ensures r.next.registry == SurvivingRegistry(s.world, s.registry)
    ensures r.next.world == SurvivingWorld(s.world, s.registry)
    ensures r.next == s.(scale := r.next.scale, target := r.next.target, lastTime := r.next.lastTime,
                         registry := r.next.registry, world := r.next.world)
  {
    var due := FlipDue(now, s.lastTime);
    var scattered := if due then ExplosionTargets(s) else [];
    var next := s.(
      scale := NextScale(s.scale, s.target, delta, button),
      target := if due then Flip(s.target) else s.target,
      lastTime := if due then now else s.lastTime,
      registry := SurvivingRegistry(s.world, s.registry),
      world := SurvivingWorld(s.world, s.registry));
    Stepped(next, scattered)
  }

  // ---------------------------------------------------------------- reset and resize

  /** Remove every dynamic body, forget all letters and send the cursor home. */
  function ResetScene(s: State): (r: State)
    ensures r.registry == [] && r.cursor == s.width * 0.1
    ensures forall i :: 0 <= i < |r.world| ==> r.world[i].isStatic && r.world[i] in s.world
    ensures forall i :: 0 <= i < |s.world| && s.world[i].isStatic ==> s.world[i] in r.world
    ensures IsSubsequence(r.world, s.world)
    ensures r == s.(registry := [], world := r.world, cursor := r.cursor)
  {
    var keep := (b: Body) => b.isStatic;
    FilterIsSubsequence(s.world, keep);
    s.(world := Filter(s.world, keep), registry := [], cursor := Home(s.width))
  }

  /** A wall the resize handler removes: a static body on an edge of the NEW viewport. */
  predicate StaleWall(b: Body, width: real, height: real) {
    b.isStatic && OnEdge(b.position, width, height)
  }

  /** The bodies a resize to width x height keeps. */
  function KeptOnResize(world: seq<Body>, width: real, height: real): seq<Body> {
    Filter(world, (b: Body) => !StaleWall(b, width, height))
  }

  /** The resize handler: adopt the new size, remove the static bodies lying on the new
      edges, add four walls on the new edges and send the cursor home. */
  function Resize(s: State, width: real, height: real): (r: State)
    ensures r.width == width && r.height == height && r.cursor == width * 0.1
    ensures |r.world| >= 4 && r.world[|r.world| - 4..] == Walls(width, height, s.nextId)
    ensures var kept := r.world[..|r.world| - 4];
            && IsSubsequence(kept, s.world)
            && (forall i :: 0 <= i < |kept| ==>
                  kept[i] in s.world && !(kept[i].isStatic && OnEdge(kept[i].position, width, height)))
            && (forall i :: 0 <= i < |s.world| && !(s.world[i].isStatic && OnEdge(s.world[i].position, width, height)) ==>
                  s.world[i] in kept)
    ensures forall i :: 0 <= i < |s.world| && !s.world[i].isStatic ==> s.world[i] in r.world
    ensures r == s.(width := width, height := height, cursor := r.cursor, world := r.world, nextId := s.nextId + 4)
  {
    var kept := KeptOnResize(s.world, width, height);
    FilterIsSubsequence(s.world, (b: Body) => !StaleWall(b, width, height));
    var world := kept + Walls(width, height, s.nextId);
    assert world[..|world| - 4] == kept;
    s.(width := width, height := height, world := world, nextId := s.nextId + 4, cursor := Home(width))
  }

  // ---------------------------------------------------------------- engine motion

  /** New position and velocity the engine gives a body during a step. */
  datatype Motion = Motion(position: Vec, velocity: Vec)

  /** The engine moving bodies between two handler calls: dynamic body `i` takes
      `motions[i]` when there is one; static bodies and every field the controller owns
      stay as they were. */
  function Integrate(world: seq<Body>, motions: seq<Motion>): (r: seq<Body>)
    ensures |r| == |world|
    ensures forall i :: 0 <= i < |world| ==>
              && r[i].id == world[i].id
              && r[i].isStatic == world[i].isStatic
              && r[i].gravityScale == world[i].gravityScale
              && r[i].caption == world[i].caption
              && (world[i].isStatic ==> r[i] == world[i])
  {
    seq(|world|, i requires 0 <= i < |world| =>
          if !world[i].isStatic && i < |motions|
          then world[i].(position := motions[i].position, velocity := motions[i].velocity)
          else world[i])
  }
}

=== FILE: cursor.dfy ===
/** The horizontal spawn cursor: where the next letter body appears. */
module Cursor {

  /** Width of one character cell; letters are 0.7 x 1.1 of it. */
  const CharWidth: real := 60.0

  /** A space moves the cursor one and a half cells. */
  const SpaceAdvance: real := CharWidth * 1.5

  /** A spawned letter moves the cursor one cell plus a 10-unit gap. */
  const LetterAdvance: real := CharWidth + 10.0

  /** Where the cursor starts and where it wraps back to: a tenth of the viewport width. */
  function Home(width: real): real {
    width * 0.1
  }

  /** The cursor wraps when it would pass 50 units short of the right edge. */
  function Limit(width: real): real {
    width - 50.0
  }

  /** The cursor never goes left of its home position, and stays within the limit
      whenever the viewport is wide enough for home to lie within it. */
  predicate InBand(cursor: real, width: real) {
    && Home(width) <= cursor
    && (Home(width) <= Limit(width) ==> cursor <= Limit(width))
  }

  /** Move the cursor right by `step`, wrapping back home when it passes the limit. */
  function Advance(cursor: real, step: real, width: real): (c: real)
    ensures cursor + step <= Limit(width) ==> c == cursor + step
    ensures cursor + step > Limit(width) ==> c == Home(width)
    ensures step >= 0.0 && InBand(cursor, width) ==> InBand(c, width)
  {
    var next := cursor + step;
    if next > Limit(width) then Home(width) else next
  }

  lemma HomeInBand(width: real)
    ensures InBand(Home(width), width)
  {
  }
}

=== FILE: invariants.dfy ===
/** What holds in every state the demo can reach: the cursor stays in its band, the target
    is normal speed or slow motion, identities are unique and fresh, and every registered
    letter is a dynamic body of the world with normal gravity. Consequences: the despawn pass
    never removes anything, and every letter is a scatter target. */
module Invariants {
  import opened Options
  import opened Seqs
  import opened Scene
  import opened Cursor
  import opened Keys
  import opened TimeScale
  import opened Controller

  /** `id` names a dynamic body of the world that still has normal gravity. */
  predicate LiveLetter(world: seq<Body>, id: nat) {
    var found := Lookup(world, id);
    found.Some? && !found.value.isStatic && found.value.gravityScale == Some(1.0)
  }

  ghost predicate Inv(s: State) {
    && InBand(s.cursor, s.width)
    && (s.target == Normal || s.target == SlowMotion)
    && UniqueIds(s.world)
    && IdsBelow(s.world, s.nextId)
    && Distinct(s.registry)
    && (forall k :: 0 <= k < |s.registry| ==> LiveLetter(s.world, s.registry[k]))
  }

  /** A live letter stays live in any world without repeated identities that still holds its body. */
  lemma LiveLetterKept(world: seq<Body>, world': seq<Body>, id: nat)
    requires LiveLetter(world, id) && UniqueIds(world')
    requires Lookup(world, id).value in world'
    ensures LiveLetter(world', id)
  {
    var j :| 0 <= j < |world'| && world'[j] == Lookup(world, id).value;
    LookupFinds(world', j);
  }

  /** Registered ids are ids of the world, hence below the identity counter. */
  lemma RegistryIdsBelow(s: State)
    requires Inv(s)
    ensures forall k :: 0 <= k < |s.registry| ==> s.registry[k] < s.nextId
  {
    forall k | 0 <= k < |s.registry| ensures s.registry[k] < s.nextId {
      var b := Lookup(s.world, s.registry[k]).value;
      var j :| 0 <= j < |s.world| && s.world[j] == b;
    }
  }

  lemma InitInv(width: real, height: real, now: real)
    ensures Inv(Init(width, height, now))
  {
    HomeInBand(width);
  }

  lemma PressSpaceInv(s: State)
    requires Inv(s)
    ensures Inv(PressSpace(s))
  {
  }

  lemma PressLetterInv(s: State, text: string)
    requires Inv(s)
    ensures Inv(PressLetter(s, text))
  {
    var r := PressLetter(s, text);
    var b := r.world[|s.world|];
    assert r.world == s.world + [b];
    UniqueIdsAppend(s.world, [b], s.nextId);
    RegistryIdsBelow(s);
    assert r.registry == s.registry + [s.nextId];
    forall i, j | 0 <= i < j < |r.registry| ensures r.registry[i] != r.registry[j] {
      if j == |s.registry| {
        assert r.registry[i] == s.registry[i];
      }
    }
    forall k | 0 <= k < |r.registry| ensures LiveLetter(r.world, r.registry[k]) {
      if k < |s.registry| {
        assert r.registry[k] == s.registry[k];
        LiveLetterKept(s.world, r.world, s.registry[k]);
      } else {
        LookupFinds(r.world, |s.world|);
      }
    }
  }

  lemma PressBackspaceInv(s: State, jitter: real)
    requires Inv(s)
    ensures Inv(PressBackspace(s, jitter))
  {
    var r := PressBackspace(s, jitter);
    if |s.registry| > 0 {
      var n := |s.registry| - 1;
      forall k | 0 <= k < n ensures LiveLetter(r.world, r.registry[k]) {
        var id := s.registry[k];
        assert r.registry[k] == id;
        assert id != s.registry[n];
        var b := Lookup(s.world, id).value;
        var j :| 0 <= j < |s.world| && s.world[j] == b;
        assert r.world[j] == b;
        LiveLetterKept(s.world, r.world, id);
      }
    }
  }

  lemma KeyDownInv(s: State, key: string, jitter: real)
    requires Inv(s)
    ensures Inv(KeyDown(s, key, jitter))
  {
    match Classify(key)
    case Space => PressSpaceInv(s);
    case Backspace => PressBackspaceInv(s, jitter);
    case Letter(text) => PressLetterInv(s, text);
    case Ignored =>
  }

  /** The despawn pass never fires in a reachable state: registered letters keep gravity
      scale 1 (backspace pops a letter before zeroing its gravity, and nothing sets a
      negative one), so none is ever expired. */
  lemma DespawnInert(s: State)
    requires Inv(s)
    ensures SurvivingRegistry(s.world, s.registry) == s.registry
    ensures SurvivingWorld(s.world, s.registry) == s.world
  {
    forall id | id in s.registry ensures !ExpiredId(s.world, id) {
      var k :| 0 <= k < |s.registry| && s.registry[k] == id;
      assert LiveLetter(s.world, s.registry[k]);
    }
    FilterKeepsAll(s.registry, (id: nat) => !ExpiredId(s.world, id));
    assert DoomedIds(s.world, s.registry) == {};
    FilterKeepsAll(s.world, (b: Body) => b.id !in DoomedIds(s.world, s.registry));
  }

  lemma AfterUpdateInv(s: State, delta: real, button: int, now: real)
    requires Inv(s)
    ensures Inv(AfterUpdate(s, delta, button, now).next)
  {
    DespawnInert(s);
  }

  lemma ResetSceneInv(s: State)
    requires Inv(s)
    ensures Inv(ResetScene(s))
  {
    FilterUniqueIds(s.world, (b: Body) => b.isStatic);
    HomeInBand(s.width);
  }

  lemma ResizeInv(s: State, width: real, height: real)
    requires Inv(s)
    ensures Inv(Resize(s, width, height))
  {
    var r := Resize(s, width, height);
    ResizeIds(s, width, height);
    HomeInBand(width);
    ResizeKeepsLetters(s, width, height);
    assert r.registry == s.registry;
  }

  /** The world after a resize keeps its identities unique and below the counter. */
  lemma ResizeIds(s: State, width: real, height: real)
    requires UniqueIds(s.world) && IdsBelow(s.world, s.nextId)
    ensures var r := Resize(s, width, height); UniqueIds(r.world) && IdsBelow(r.world, r.nextId)
  {
    var r := ResizeWorld(s, width, height);
    KeptAndWallsIds(s.world, width, height, s.nextId);
  }

  /** The state a resize produces, spelled out field by field. */
  lemma ResizeWorld(s: State, width: real, height: real) returns (r: State)
    ensures r == Resize(s, width, height)
    ensures r.world == KeptOnResize(s.world, width, height) + Walls(width, height, s.nextId)
    ensures r.nextId == s.nextId + 4
  {
    r := Resize(s, width, height);
  }

  /** The kept bodies followed by four walls with fresh ids have unique ids below `next + 4`. */
  lemma KeptAndWallsIds(world: seq<Body>, width: real, height: real, next: nat)
    requires UniqueIds(world) && IdsBelow(world, next)
    ensures UniqueIds(KeptOnResize(world, width, height) + Walls(width, height, next))
    ensures IdsBelow(KeptOnResize(world, width, height) + Walls(width, height, next), next + 4)
  {
    FilterUniqueIds(world, (b: Body) => !StaleWall(b, width, height));
    UniqueIdsAppend(KeptOnResize(world, width, height), Walls(width, height, next), next);
  }

  /** Every registered letter is still a live letter after a resize. */
  lemma ResizeKeepsLetters(s: State, width: real, height: real)
    requires Inv(s)
    ensures forall k :: 0 <= k < |s.registry| ==> LiveLetter(Resize(s, width, height).world, s.registry[k])
  {
    var w := Resize(s, width, height).world;
    ResizeIds(s, width, height);
    forall k | 0 <= k < |s.registry| ensures LiveLetter(w, s.registry[k]) {
      var b := Lookup(s.world, s.registry[k]).value;
      var j :| 0 <= j < |s.world| && s.world[j] == b;
      LiveLetterKept(s.world, w, s.registry[k]);
    }
  }

  lemma IntegrateInv(s: State, motions: seq<Motion>)
    requires Inv(s)
    ensures Inv(s.(world := Integrate(s.world, motions)))
  {
    var w := Integrate(s.world, motions);
    forall k | 0 <= k < |s.registry| ensures LiveLetter(w, s.registry[k]) {
      var b := Lookup(s.world, s.registry[k]).value;
      var j :| 0 <= j < |s.world| && s.world[j] == b;
      LookupFinds(w, j);
    }
  }

  // ---------------------------------------------------------------- runs

  /** Everything that can happen to the scene: a key press (with its random jitter), an engine
      step (reported delta, pointer button, wall-clock time), a scene reset, a window resize,
      and the engine moving bodies. */
  datatype Event =
    | Key(key: string, jitter: real)
    | Tick(delta: real, button: int, now: real)
    | Reset
    | Resized(width: real, height: real)
    | Physics(motions: seq<Motion>)

  function Apply(s: State, e: Event): State {
    match e
    case Key(key, jitter) => KeyDown(s, key, jitter)
    case Tick(delta, button, now) => AfterUpdate(s, delta, button, now).next
    case Reset => ResetScene(s)
    case Resized(width, height) => Resize(s, width, height)
    case Physics(motions) => s.(world := Integrate(s.world, motions))
  }

  function Run(s: State, events: seq<Event>): State
    decreases |events|
  {
    if |events| == 0 then s else Run(Apply(s, events[0]), events[1..])
  }

  lemma ApplyInv(s: State, e: Event)
    requires Inv(s)
    ensures Inv(Apply(s, e))
  {
    match e
    case Key(key, jitter) => KeyDownInv(s, key, jitter);
    case Tick(delta, button, now) => AfterUpdateInv(s, delta, button, now);
    case Reset => ResetSceneInv(s);
    case Resized(width, height) => ResizeInv(s, width, height);
    case Physics(motions) => IntegrateInv(s, motions);
  }

  lemma {:induction false} RunInv(s: State, events: seq<Event>)
    requires Inv(s)
    ensures Inv(Run(s, events))
    decreases |events|
  {
    if |events| > 0 {
      ApplyInv(s, events[0]);
      RunInv(Apply(s, events[0]), events[1..]);
    }
  }

  /** Every reachable state satisfies the invariant. */
  lemma Reachable(width: real, height: real, now: real, events: seq<Event>)
    ensures Inv(Run(Init(width, height, now), events))
  {
    InitInv(width, height, now);
    RunInv(Init(width, height, now), events);
  }

  /** The cursor never goes left of a tenth of the width, and never past 50 short of the right
      edge whenever a tenth of the width itself lies within that bound. */
  lemma CursorBounds(width: real, height: real, now: real, events: seq<Event>)
    ensures var s := Run(Init(width, height, now), events);
            && s.width * 0.1 <= s.cursor
            && (s.width * 0.1 <= s.width - 50.0 ==> s.cursor <= s.width - 50.0)
  {
    Reachable(width, height, now, events);
  }

  /** The time-scale target is always either normal speed or slow motion. */
  lemma TargetTwoValued(width: real, height: real, now: real, events: seq<Event>)
    ensures var s := Run(Init(width, height, now), events);
            s.target == 1.0 || s.target == 0.05
  {
    Reachable(width, height, now, events);
  }

  /** Balloons are never collected: in every reachable state the despawn pass of the next step
      leaves registry and world as they were. */
  lemma BalloonsNeverDespawn(width: real, height: real, now: real, events: seq<Event>,
                             delta: real, button: int, later: real)
    ensures var s := Run(Init(width, height, now), events);
            var r := AfterUpdate(s, delta, button, later).next;
            r.registry == s.registry && r.world == s.world
  {
    Reachable(width, height, now, events);
    DespawnInert(Run(Init(width, height, now), events));
  }

  /** How many times the target changes when the step handler runs at the clock readings
      `nows`, in order, from state `s`. */
  function TargetChanges(s: State, delta: real, button: int, nows: seq<real>): nat
    decreases |nows|
  {
    if |nows| == 0 then 0
    else
      var r := AfterUpdate(s, delta, button, nows[0]).next;
      (if r.target != s.target then 1 else 0) + TargetChanges(r, delta, button, nows[1..])
  }

  /** The step handler changes the target exactly when the flip rule counted by `FlipCount`
      fires. */
  lemma {:induction false} TargetChangesCounted(s: State, delta: real, button: int, nows: seq<real>)
    ensures TargetChanges(s, delta, button, nows) == FlipCount(s.lastTime, nows)
    decreases |nows|
  {
    if |nows| > 0 {
      var r := AfterUpdate(s, delta, button, nows[0]).next;
      TargetChangesCounted(r, delta, button, nows[1..]);
    }
  }

  /** Flip cadence of the step handler itself: over clock readings that never go backwards,
      the target changes at most once per 2000 ms of elapsed wall-clock time. */
  lemma StepFlipCadence(s: State, delta: real, button: int, nows: seq<real>)
    requires |nows| > 0 && s.lastTime <= nows[0]
    requires forall i :: 0 < i < |nows| ==> nows[i - 1] <= nows[i]
    ensures (TargetChanges(s, delta, button, nows) as real) * FlipPeriod <= nows[|nows| - 1] - s.lastTime
  {
    TargetChangesCounted(s, delta, button, nows);
    FlipCadence(s.lastTime, nows);
  }

  /** And at least once per 2000 ms plus the longest pause between steps: when consecutive
      readings are at most `gap` ms apart, the target changes, as spans of 2000 + `gap` ms
      laid end to end, cover more than the elapsed time minus 2000 ms. By `PeriodsProduct`
      the changes number more than (elapsed - 2000) / (2000 + gap). */
  lemma StepFlipCadenceLower(s: State, delta: real, button: int, nows: seq<real>, gap: real)
    requires |nows| > 0 && nows[0] - s.lastTime < FlipPeriod + gap
    requires forall i :: 0 < i < |nows| ==> nows[i] - nows[i - 1] <= gap
    ensures Periods(TargetChanges(s, delta, button, nows), FlipPeriod + gap) > nows[|nows| - 1] - s.lastTime - FlipPeriod
  {
    TargetChangesCounted(s, delta, button, nows);
    FlipPeriodsLower(s.lastTime, nows, gap);
  }

  /** Every registered letter is pushed by each periodic scatter, and no wall ever is. */
  lemma LettersAlwaysScatter(s: State)
    requires Inv(s)
    ensures forall k :: 0 <= k < |s.registry| ==>
              Lookup(s.world, s.registry[k]).Some? && Lookup(s.world, s.registry[k]).value in ExplosionTargets(s)
    ensures forall i :: 0 <= i < |ExplosionTargets(s)| ==> !ExplosionTargets(s)[i].isStatic
  {
    forall k | 0 <= k < |s.registry| ensures Lookup(s.world, s.registry[k]).value in ExplosionTargets(s) {
      var b := Lookup(s.world, s.registry[k]).value;
      var j :| 0 <= j < |s.world| && s.world[j] == b;
      assert s.world[j].id in s.registry;
    }
  }
}

=== FILE: keys.dfy ===
/** How the key handler reads a key: the raw key name is compared with " " and
    "Backspace"; otherwise its upper-case form is looked for, as a substring, in the
    alphabet string. */
module Keys {

  const Alphabet: string := "ABCDEFGHIJKLMNOPQRSTUVWXYZ"

  /** The four non-ASCII characters whose upper-case form occurs in the alphabet string:
      dotless i (upper-cased to I), long s (to S), and the long-s-t and s-t ligatures (both to
      ST). */
  const DotlessI: char := '\U{0131}'
  const LongS: char := '\U{017F}'
  const LongSTLigature: char := '\U{FB05}'
  const STLigature: char := '\U{FB06}'

  /** Upper-casing of one character, as far as it can matter to the alphabet test: the ASCII
      lower-case letters and the four characters above. Every other character is kept. */
  function UpperOf(c: char): string {
    if 'a' <= c <= 'z' then [(c as int - 32) as char]
    else if c == DotlessI then "I"
    else if c == LongS then "S"
    else if c == LongSTLigature || c == STLigature then "ST"
    else [c]
  }

  /** Upper-casing of a key name, character by character; a ligature becomes two capitals. */
  function Upper(s: string): (u: string)
    ensures |s| <= |u| <= 2 * |s|
    ensures (forall i :: 0 <= i < |s| ==> s[i] != LongSTLigature && s[i] != STLigature) ==> |u| == |s|
    decreases |s|
  {
    if |s| == 0 then [] else UpperOf(s[0]) + Upper(s[1..])
  }

  predicate StartsWith(s: string, prefix: string) {
    |prefix| <= |s| && s[..|prefix|] == prefix
  }

  /** Substring search as the string `includes` method performs it: does `needle` start at
      some position of `hay`? The empty needle is found in every string. */
  function Includes(hay: string, needle: string): bool
    decreases |hay|
  {
    StartsWith(hay, needle) || (|hay| > 0 && Includes(hay[1..], needle))
  }

  /** `needle` occurs in `hay` starting at index `i`. */
  predicate OccursAt(hay: string, needle: string, i: int) {
    0 <= i && i + |needle| <= |hay| && hay[i..i + |needle|] == needle
  }

  /** `Includes` is the substring test: true exactly when the needle occurs at some index. */
  lemma {:induction false} IncludesIffOccurs(hay: string, needle: string)
    ensures Includes(hay, needle) <==> exists i :: OccursAt(hay, needle, i)
  {
    if StartsWith(hay, needle) {
      assert OccursAt(hay, needle, 0);
    } else if |hay| == 0 {
      assert forall i :: !OccursAt(hay, needle, i);
    } else {
      IncludesIffOccurs(hay[1..], needle);
      if Includes(hay[1..], needle) {
        var i :| OccursAt(hay[1..], needle, i);
        assert hay[1..][i..i + |needle|] == hay[i + 1..i + 1 + |needle|];
        assert OccursAt(hay, needle, i + 1);
      } else {
        forall i ensures !OccursAt(hay, needle, i) {
          if 0 < i && i + |needle| <= |hay| {
            assert hay[1..][i - 1..i - 1 + |needle|] == hay[i..i + |needle|];
            assert !OccursAt(hay[1..], needle, i - 1);
          } else if i == 0 && |needle| <= |hay| {
            assert hay[0..|needle|] == hay[..|needle|];
          }
        }
      }
    }
  }

  /** What a key press does, decided by the handler's three tests in order. */
  datatype KeyAction = Space | Backspace | Letter(text: string) | Ignored

  function Classify(key: string): (a: KeyAction)
    ensures a == Space <==> key == " "
    ensures a == Backspace <==> key == "Backspace"
    ensures a.Letter? <==> key != " " && key != "Backspace" && Includes(Alphabet, Upper(key))
    ensures a.Letter? ==> a.text == Upper(key)
  {
    if key == " " then Space
    else if key == "Backspace" then Backspace
    else if Includes(Alphabet, Upper(key)) then Letter(Upper(key))
    else Ignored
  }

  /** The alphabet string holds the 26 Latin capitals in code-point order. */
  lemma AlphabetIsRange()
    ensures forall i :: 0 <= i < |Alphabet| ==> Alphabet[i] as int == 'A' as int + i
  {
    assert Alphabet == seq(26, i requires 0 <= i < 26 => ('A' as int + i) as char);
  }

  /** A character occurs in the alphabet string exactly when it is a Latin capital. */
  lemma InAlphabet(u: char)
    ensures (exists i :: OccursAt(Alphabet, [u], i)) <==> 'A' <= u <= 'Z'
  {
    AlphabetIsRange();
    if 'A' <= u <= 'Z' {
      var i := u as int - 'A' as int;
      assert Alphabet[i..i + 1] == [Alphabet[i]];
      assert OccursAt(Alphabet, [u], i);
    } else {
      forall i ensures !OccursAt(Alphabet, [u], i) {
        if 0 <= i < |Alphabet| {
          assert Alphabet[i..i + 1] == [Alphabet[i]];
        }
      }
    }
  }

  /** A one-character key spawns a letter exactly when it is a Latin letter of either case or
      one of the four non-ASCII characters whose upper-case form occurs in the alphabet string,
      and the letter's text is that upper-case form. */
  lemma SingleCharacterKeys(c: char)
    ensures Classify([c]).Letter? <==>
              ('a' <= c <= 'z' || 'A' <= c <= 'Z' || c == DotlessI || c == LongS
               || c == LongSTLigature || c == STLigature)
    ensures Classify([c]).Letter? ==> Classify([c]).text == UpperOf(c)
    ensures c == LongSTLigature || c == STLigature ==> Classify([c]) == Letter("ST")
  {
    assert [c][1..] == [];
    assert Upper([c]) == UpperOf(c);
    if c == LongSTLigature || c == STLigature {
      StInAlphabet();
    } else {
      SingleUpper(c);
    }
  }

  /** The two-letter run "ST" occurs in the alphabet string. */
  lemma StInAlphabet()
    ensures Includes(Alphabet, "ST")
  {
    AlphabetIsRange();
    assert Alphabet[18] == 'S' && Alphabet[19] == 'T';
    assert Alphabet[18..20] == "ST";
    IncludesIffOccurs(Alphabet, "ST");
    assert OccursAt(Alphabet, "ST", 18);
  }

  /** A character other than the two ligatures upper-cases to one character, which is in
      the alphabet exactly when the character is a letter of either case, ı or ſ. */
  lemma SingleUpper(c: char)
    requires c != LongSTLigature && c != STLigature
    ensures Includes(Alphabet, UpperOf(c)) <==> ('a' <= c <= 'z' || 'A' <= c <= 'Z' || c == DotlessI || c == LongS)
  {
    var u := UpperOf(c)[0];
    assert UpperOf(c) == [u];
    IncludesIffOccurs(Alphabet, [u]);
    InAlphabet(u);
  }
}

=== FILE: options.dfy ===
/** A value that may be absent: stands for JavaScript's `undefined` on body fields
    the controller only sets on some bodies. */
module Options {

  datatype Option<+T> = None | Some(value: T)
}

=== FILE: scenarios.dfy ===
/** Properties of whole interactions: a typed-and-deleted word, the registry count over a
    run of key presses, and what repeated resizes do to the walls. */
module Scenarios {
  import opened Options
  import opened Seqs
  import opened Scene
  import opened Keys
  import opened Controller

  /** In an 800 x 600 window: 'A' spawns a letter at x = 80, y = 180; 'b' spawns 'B' 70 units
      further right; backspace pops 'B' and turns it into a balloon that keeps its body in the
      world. */
  lemma TypeAndDelete(jitter: real)
    ensures var s0 := Init(800.0, 600.0, 0.0);
            var s1 := KeyDown(s0, "A", jitter);
            var s2 := KeyDown(s1, "b", jitter);
            var s3 := KeyDown(s2, "Backspace", jitter);
            && |s1.registry| == 1 && |s1.world| == 5
            && s1.world[4].caption == "A" && s1.world[4].position == Vec(80.0, 180.0)
            && |s2.registry| == 2
            && s2.world[5].caption == "B" && s2.world[5].position == Vec(150.0, 180.0)
            && s3.registry == s1.registry && |s3.world| == 6
            && s3.world[5].gravityScale == Some(0.0)
            && s3.world[5].velocity.y == s2.world[5].velocity.y - 10.0
            && s3.cursor == 220.0
  {
    SingleCharacterKeys('A');
    SingleCharacterKeys('b');
    assert "A" == ['A'] && "b" == ['b'] && "B" == ['B'];
  }

  /** The registry length the key handler leaves: one more per letter key, one fewer per
      backspace on a non-empty registry, unchanged otherwise. */
  function ExpectedCount(n: nat, keys: seq<string>): nat
    decreases |keys|
  {
    if |keys| == 0 then n
    else if Classify(keys[0]).Letter? then ExpectedCount(n + 1, keys[1..])
    else if keys[0] == "Backspace" then ExpectedCount(if n == 0 then 0 else n - 1, keys[1..])
    else ExpectedCount(n, keys[1..])
  }

  /** The state after pressing `keys` in order, with backspace jitter `jitter`. */
  function TypeKeys(s: State, keys: seq<string>, jitter: real): State
    decreases |keys|
  {
    if |keys| == 0 then s else TypeKeys(KeyDown(s, keys[0], jitter), keys[1..], jitter)
  }

  /** After a run of key presses the registry holds the letters typed minus the letters
      popped, where a backspace on an empty registry pops nothing. */
  lemma {:induction false} RegistryCount(s: State, keys: seq<string>, jitter: real)
    ensures |TypeKeys(s, keys, jitter).registry| == ExpectedCount(|s.registry|, keys)
    decreases |keys|
  {
    if |keys| > 0 {
      KeyDownCount(s, keys[0], jitter);
      RegistryCount(KeyDown(s, keys[0], jitter), keys[1..], jitter);
    }
  }

  /** One key press changes the registry length as `ExpectedCount` counts it. */
  lemma KeyDownCount(s: State, key: string, jitter: real)
    ensures |KeyDown(s, key, jitter).registry| == ExpectedCount(|s.registry|, [key])
  {
    var rest: seq<string> := [];
    assert [key][1..] == rest;
    match Classify(key)
    case Space =>
    case Backspace =>
    case Letter(text) =>
    case Ignored =>
  }

  /** A second resize to the same size removes exactly the four walls the first one added and
      puts four new ones in their place: no duplicate walls pile up. */
  lemma ResizeTwiceSameSize(s: State, width: real, height: real)
    ensures var s1 := Resize(s, width, height);
            var s2 := Resize(s1, width, height);
            && s2.world == s1.world[..|s1.world| - 4] + Walls(width, height, s1.nextId)
            && |Statics(s2.world)| == |Statics(s1.world)|
  {
    var s1 := Resize(s, width, height);
    var kept := KeptOnResize(s.world, width, height);
    var walls1 := Walls(width, height, s.nextId);
    var walls2 := Walls(width, height, s1.nextId);
    var keep := (b: Body) => !StaleWall(b, width, height);
    var isStatic := (b: Body) => b.isStatic;
    assert s1.world == kept + walls1;
    FilterAppend(kept, walls1, keep);
    FilterKeepsAll(kept, keep);
    FilterDropsAll(walls1, keep);
    assert KeptOnResize(s1.world, width, height) == kept;
    FilterAppend(kept, walls1, isStatic);
    FilterAppend(kept, walls2, isStatic);
    FilterKeepsAll(walls1, isStatic);
    FilterKeepsAll(walls2, isStatic);
  }

  /** Resizing the freshly set-up scene to its own size leaves exactly four walls. */
  lemma ResizeSameSizeFromStart(width: real, height: real, now: real)
    ensures Resize(Init(width, height, now), width, height).world == Walls(width, height, 4)
  {
    var w := Walls(width, height, 0);
    FilterDropsAll(w, (b: Body) => !StaleWall(b, width, height));
  }

  /** The wall filter matches against the NEW edges, so growing the window leaks the old
      bottom and right walls: 800 x 600 resized to 1000 x 700 keeps six static bodies. */
  lemma ResizeLeaksOldWalls()
    ensures var s := Resize(Init(800.0, 600.0, 0.0), 1000.0, 700.0);
            && |Statics(s.world)| == 6
            && s.world[0].position == Vec(400.0, 600.0)
            && s.world[1].position == Vec(800.0, 300.0)
  {
    var w := Walls(800.0, 600.0, 0);
    var keep := (b: Body) => !StaleWall(b, 1000.0, 700.0);
    KeepsMiddleTwo(w, keep);
    var kept := [w[1], w[2]];
    var walls := Walls(1000.0, 700.0, 4);
    FilterAppend(kept, walls, (b: Body) => b.isStatic);
    FilterKeepsAll(kept, (b: Body) => b.isStatic);
    FilterKeepsAll(walls, (b: Body) => b.isStatic);
  }

  /** Widening the window without changing its height removes the old bottom wall too (it lies
      at the unchanged height) and leaks only the old right wall: five static bodies. */
  lemma ResizeWiderOnly()
    ensures var s := Resize(Init(800.0, 600.0, 0.0), 1000.0, 600.0);
            && |Statics(s.world)| == 5
            && s.world[0].position == Vec(800.0, 300.0)
  {
    var w := Walls(800.0, 600.0, 0);
    var keep := (b: Body) => !StaleWall(b, 1000.0, 600.0);
    KeepsThird(w, keep);
    var kept := [w[2]];
    var walls := Walls(1000.0, 600.0, 4);
    FilterAppend(kept, walls, (b: Body) => b.isStatic);
    FilterKeepsAll(kept, (b: Body) => b.isStatic);
    FilterKeepsAll(walls, (b: Body) => b.isStatic);
  }

  /** Of four bodies only the third is kept. */
  lemma KeepsThird(w: seq<Body>, keep: Body -> bool)
    requires |w| == 4 && !keep(w[0]) && !keep(w[1]) && keep(w[2]) && !keep(w[3])
    ensures Filter(w, keep) == [w[2]]
  {
    assert w[1..][1..] == w[2..];
    assert w[2..][1..] == w[3..];
    assert w[3..][1..] == [];
    calc {
      Filter(w, keep);
      Filter(w[1..], keep);
      Filter(w[2..], keep);
      [w[2]] + Filter(w[3..], keep);
      [w[2]] + Filter([], keep);
    }
  }

  /** The first and last of four bodies are filtered out, the middle two kept. */
  lemma KeepsMiddleTwo(w: seq<Body>, keep: Body -> bool)
    requires |w| == 4 && !keep(w[0]) && keep(w[1]) && keep(w[2]) && !keep(w[3])
    ensures Filter(w, keep) == [w[1], w[2]]
  {
    assert w[1..][1..] == w[2..];
    assert w[2..][1..] == w[3..];
    assert w[3..][1..] == [];
    calc {
      Filter(w, keep);
      Filter(w[1..], keep);
      [w[1]] + Filter(w[2..], keep);
      [w[1]] + ([w[2]] + Filter(w[3..], keep));
      [w[1]] + ([w[2]] + Filter([], keep));
    }
  }
}

=== FILE: scene.dfy ===
/** The bodies of the physics world as the scene controller sees them: only the fields the
    controller reads or writes. The physics engine itself is not part of this model. */
module Scene {
  import opened Options
  import opened Seqs

  datatype Vec = Vec(x: real, y: real)

  /** A rigid body. `id` stands for the identity of the engine's body object; `caption` is
      the engine's `label` field (the text the renderer draws); `extent` is the width and
      height the rectangle was created with; `gravityScale` is `None` on bodies the
      controller never set it on (the walls). */
  datatype Body = Body(
    id: nat,
    caption: string,
    isStatic: bool,
    position: Vec,
    extent: Vec,
    velocity: Vec,
    gravityScale: Option<real>,
    frictionAir: real)

  /** The engine's defaults for a freshly created rectangle. */
  const DefaultLabel: string := "Rectangle Body"
  const DefaultFrictionAir: real := 0.01

  /** Thickness of each of the four boundary walls. */
  const WallThickness: real := 50.0

  /** A static rectangle of the given centre and size, as the wall constructor builds it. */
  function Wall(id: nat, centre: Vec, extent: Vec): Body {
    Body(id, DefaultLabel, true, centre, extent, Vec(0.0, 0.0), None, DefaultFrictionAir)
  }

  /** A position lying on one of the four edges of a width x height viewport. */
  predicate OnEdge(p: Vec, width: real, height: real) {
    p.y == 0.0 || p.y == height || p.x == 0.0 || p.x == width
  }

  /** The four walls (top, bottom, right, left) of a width x height viewport, with fresh ids
      starting at `firstId`. */
  function Walls(width: real, height: real, firstId: nat): (r: seq<Body>)
    ensures |r| == 4
    ensures forall i :: 0 <= i < 4 ==> r[i].id == firstId + i && r[i].isStatic
    ensures forall i :: 0 <= i < 4 ==> OnEdge(r[i].position, width, height)
    ensures r[0].position == Vec(width / 2.0, 0.0) && r[0].extent == Vec(width, WallThickness)
    ensures r[1].position == Vec(width / 2.0, height) && r[1].extent == Vec(width, WallThickness)
    ensures r[2].position == Vec(width, height / 2.0) && r[2].extent == Vec(WallThickness, height)
    ensures r[3].position == Vec(0.0, height / 2.0) && r[3].extent == Vec(WallThickness, height)
  {
    [ Wall(firstId, Vec(width / 2.0, 0.0), Vec(width, WallThickness)),
      Wall(firstId + 1, Vec(width / 2.0, height), Vec(width, WallThickness)),
      Wall(firstId + 2, Vec(width, height / 2.0), Vec(WallThickness, height)),
      Wall(firstId + 3, Vec(0.0, height / 2.0), Vec(WallThickness, height)) ]
  }

  /** The static bodies of a world, in world order. */
  function Statics(world: seq<Body>): seq<Body> {
    Filter(world, (b: Body) => b.isStatic)
  }

  /** No two bodies of the world share an identity. */
  predicate UniqueIds(world: seq<Body>) {
    forall i, j :: 0 <= i < j < |world| ==> world[i].id != world[j].id
  }

  /** Every id in the world is below `next`, so `next` and above are fresh. */
  predicate IdsBelow(world: seq<Body>, next: nat) {
    forall i :: 0 <= i < |world| ==> world[i].id < next
  }

  /** The first body of the world with the given identity, if any. */
  function Lookup(world: seq<Body>, id: nat): (r: Option<Body>)
    ensures r.Some? ==> r.value in world && r.value.id == id
    ensures r.None? ==> forall i :: 0 <= i < |world| ==> world[i].id != id
  {
    if |world| == 0 then None
    else if world[0].id == id then Some(world[0])
    else Lookup(world[1..], id)
  }

  /** In a world without repeated identities, looking up a body's id finds that body. */
  lemma {:induction false} LookupFinds(world: seq<Body>, i: nat)
    requires UniqueIds(world) && i < |world|
    ensures Lookup(world, world[i].id) == Some(world[i])
  {
    if i > 0 {
      assert world[0].id != world[i].id;
      assert UniqueIds(world[1..]) by {
        forall a, b | 0 <= a < b < |world[1..]| ensures world[1..][a].id != world[1..][b].id {
          assert world[1..][a] == world[a + 1] && world[1..][b] == world[b + 1];
        }
      }
      assert world[1..][i - 1] == world[i];
      LookupFinds(world[1..], i - 1);
    }
  }

  /** Filtering a world cannot create repeated identities. */
  lemma {:induction false} FilterUniqueIds(world: seq<Body>, keep: Body -> bool)
    requires UniqueIds(world)
    ensures UniqueIds(Filter(world, keep))
  {
    if |world| > 0 {
      var tail := world[1..];
      UniqueIdsTail(world);
      FilterUniqueIds(tail, keep);
      if keep(world[0]) {
        ConsUniqueIds(world[0], Filter(tail, keep), tail);
      }
    }
  }

  /** The tail of a world without repeated identities has none, nor the first body's id. */
  lemma UniqueIdsTail(world: seq<Body>)
    requires UniqueIds(world) && |world| > 0
    ensures UniqueIds(world[1..])
    ensures forall k :: 0 <= k < |world[1..]| ==> world[1..][k].id != world[0].id
  {
    var tail := world[1..];
    forall a, b | 0 <= a < b < |tail| ensures tail[a].id != tail[b].id {
      assert tail[a] == world[a + 1] && tail[b] == world[b + 1];
    }
    forall k | 0 <= k < |tail| ensures tail[k].id != world[0].id {
      assert tail[k] == world[k + 1];
    }
  }

  /** Putting a body in front of a world drawn from bodies with other ids keeps ids unique. */
  lemma ConsUniqueIds(first: Body, rest: seq<Body>, pool: seq<Body>)
    requires UniqueIds(rest)
    requires forall k :: 0 <= k < |rest| ==> rest[k] in pool
    requires forall k :: 0 <= k < |pool| ==> pool[k].id != first.id
    ensures UniqueIds([first] + rest)
  {
    var r := [first] + rest;
    forall a, b | 0 <= a < b < |r| ensures r[a].id != r[b].id {
      assert r[b] == rest[b - 1];
      if a == 0 {
        var k :| 0 <= k < |pool| && pool[k] == rest[b - 1];
      } else {
        assert r[a] == rest[a - 1];
      }
    }
  }

  /** Two worlds without repeated identities and with disjoint identities join into one. */
  lemma UniqueIdsAppend(a: seq<Body>, b: seq<Body>, next: nat)
    requires UniqueIds(a) && UniqueIds(b) && IdsBelow(a, next)
    requires forall j :: 0 <= j < |b| ==> b[j].id >= next
    ensures UniqueIds(a + b)
  {
    var ab := a + b;
    forall i, j | 0 <= i < j < |ab| ensures ab[i].id != ab[j].id {
      if j < |a| {
        assert ab[i] == a[i] && ab[j] == a[j];
      } else if i < |a| {
        assert ab[i] == a[i] && ab[j] == b[j - |a|];
      } else {
        assert ab[i] == b[i - |a|] && ab[j] == b[j - |a|];
      }
    }
  }
}

=== FILE: seqs.dfy ===
/** Order-preserving filtering of sequences, the one collection operation the scene
    controller uses for every removal (despawn pass, scene reset, wall swap). */
module Seqs {

  /** The elements of `s` that satisfy `keep`, in their original order. */
  function Filter<T(==)>(s: seq<T>, keep: T -> bool): (r: seq<T>)
    ensures |r| <= |s|
    ensures forall i :: 0 <= i < |r| ==> r[i] in s && keep(r[i])
    ensures forall i :: 0 <= i < |s| && keep(s[i]) ==> s[i] in r
  {
    if |s| == 0 then []
    else if keep(s[0]) then [s[0]] + Filter(s[1..], keep)
    else Filter(s[1..], keep)
  }

  /** `a` can be obtained from `b` by deleting elements: the survivors keep their relative order. */
  predicate IsSubsequence<T(==)>(a: seq<T>, b: seq<T>)
    decreases |b|
  {
    || |a| == 0
    || (&& |b| > 0
        && (|| (a[0] == b[0] && IsSubsequence(a[1..], b[1..]))
            || IsSubsequence(a, b[1..])))
  }

  /** No element occurs twice. */
  predicate Distinct<T(==)>(s: seq<T>) {
    forall i, j :: 0 <= i < j < |s| ==> s[i] != s[j]
  }

  lemma {:induction false} FilterIsSubsequence<T>(s: seq<T>, keep: T -> bool)
    ensures IsSubsequence(Filter(s, keep), s)
  {
    if |s| > 0 {
      FilterIsSubsequence(s[1..], keep);
      if keep(s[0]) {
        var r := Filter(s, keep);
        assert r[1..] == Filter(s[1..], keep);
      }
    }
  }

  /** Filtering with a predicate every element satisfies changes nothing. */
  lemma {:induction false} FilterKeepsAll<T>(s: seq<T>, keep: T -> bool)
    requires forall x :: x in s ==> keep(x)
    ensures Filter(s, keep) == s
  {
    if |s| > 0 {
      assert s[0] in s;
      FilterKeepsAll(s[1..], keep);
      assert [s[0]] + s[1..] == s;
    }
  }

  /** Filtering with a predicate no element satisfies leaves nothing. */
  lemma {:induction false} FilterDropsAll<T>(s: seq<T>, keep: T -> bool)
    requires forall x :: x in s ==> !keep(x)
    ensures Filter(s, keep) == []
  {
    if |s| > 0 {
      assert s[0] in s;
      FilterDropsAll(s[1..], keep);
    }
  }

  /** Filtering distributes over concatenation. */
  lemma {:induction false} FilterAppend<T>(a: seq<T>, b: seq<T>, keep: T -> bool)
    ensures Filter(a + b, keep) == Filter(a, keep) + Filter(b, keep)
  {
    if |a| == 0 {
      assert a + b == b;
    } else {
      assert (a + b)[0] == a[0];
      assert (a + b)[1..] == a[1..] + b;
      FilterAppend(a[1..], b, keep);
    }
  }

  /** Two filters in a row are one filter with the conjunction of both predicates. */
  lemma {:induction false} FilterTwice<T>(s: seq<T>, first: T -> bool, second: T -> bool, both: T -> bool)
    requires forall x :: both(x) == (first(x) && second(x))
    ensures Filter(Filter(s, first), second) == Filter(s, both)
  {
    if |s| > 0 {
      FilterTwice(s[1..], first, second, both);
      if first(s[0]) {
        var f := Filter(s, first);
        assert f[0] == s[0] && f[1..] == Filter(s[1..], first);
      }
    }
  }

  /** Filtering a sequence without repetitions gives one without repetitions. */
  lemma {:induction false} FilterDistinct<T>(s: seq<T>, keep: T -> bool)
    requires Distinct(s)
    ensures Distinct(Filter(s, keep))
  {
    if |s| > 0 {
      assert Distinct(s[1..]) by {
        forall i, j | 0 <= i < j < |s[1..]| ensures s[1..][i] != s[1..][j] {
          assert s[1..][i] == s[i + 1] && s[1..][j] == s[j + 1];
        }
      }
      FilterDistinct(s[1..], keep);
      if keep(s[0]) {
        var rest := Filter(s[1..], keep);
        assert s[0] !in s[1..] by {
          forall k | 0 <= k < |s[1..]| ensures s[1..][k] != s[0] {
            assert s[1..][k] == s[k + 1];
          }
        }
        assert s[0] !in rest;
        var r := [s[0]] + rest;
        forall i, j | 0 <= i < j < |r| ensures r[i] != r[j] {
          if i == 0 {
            assert r[j] == rest[j - 1];
            assert r[j] in rest;
          } else {
            assert r[i] == rest[i - 1] && r[j] == rest[j - 1];
          }
        }
      }
    }
  }
}

=== FILE: timescale.dfy ===
/** Bullet-time: the simulation time scale eases toward a target that flips between normal
    speed and slow motion on a fixed wall-clock period. */
module TimeScale {

  const Normal: real := 1.0
  const SlowMotion: real := 0.05

  /** Wall-clock milliseconds between two flips of the target. */
  const FlipPeriod: real := 2000.0

  /** Rate, per second, at which the time scale closes the gap to its target. */
  const TweenRate: real := 3.0

  /** The step length in milliseconds assumed when the engine reports a zero delta. */
  const DefaultDelta: real := 1000.0 / 60.0

  /** The pointer button value while no button is held. */
  const NoButton: int := -1

  /** Seconds covered by a step whose reported length is `delta` milliseconds; a zero
      (falsy) delta counts as one sixtieth of a second. */
  function StepSeconds(delta: real): (dt: real)
    ensures delta != 0.0 ==> dt * 1000.0 == delta
    ensures delta == 0.0 ==> dt * 60.0 == 1.0
  {
    (if delta == 0.0 then DefaultDelta else delta) / 1000.0
  }

  /** One easing step of length `dt` seconds: the gap to the target shrinks by the factor
      1 - 3 dt, so for 0 <= 3 dt <= 1 the new scale lies between the old one and the target. */
  function Tween(scale: real, target: real, dt: real): (r: real)
    ensures r - target == (1.0 - TweenRate * dt) * (scale - target)
  {
    scale + (target - scale) * TweenRate * dt
  }

  /** With 0 <= 3 dt <= 1 an easing step never overshoots: the new scale lies between the
      old scale and the target. */
  lemma TweenBetween(scale: real, target: real, dt: real)
    requires 0.0 <= TweenRate * dt <= 1.0
    ensures scale <= target ==> scale <= Tween(scale, target, dt) <= target
    ensures target <= scale ==> target <= Tween(scale, target, dt) <= scale
  {
    var k := TweenRate * dt;
    var gap := target - scale;
    assert Tween(scale, target, dt) == scale + gap * k;
    if gap >= 0.0 {
      MulNonneg(gap, k);
      MulNonneg(gap, 1.0 - k);
      assert gap - gap * k == gap * (1.0 - k);
    } else {
      MulNonneg(-gap, k);
      MulNonneg(-gap, 1.0 - k);
      assert gap * k == -((-gap) * k);
      assert gap - gap * k == -((-gap) * (1.0 - k));
    }
  }

  lemma MulNonneg(a: real, b: real)
    requires a >= 0.0 && b >= 0.0
    ensures a * b >= 0.0
  {
  }

  /** The time scale after one step: eased toward the target while no body is dragged,
      forced back to normal speed while one is. */
  function NextScale(scale: real, target: real, delta: real, button: int): (r: real)
    ensures button != NoButton ==> r == Normal
    ensures button == NoButton ==> r - target == (1.0 - TweenRate * StepSeconds(delta)) * (scale - target)
  {
    if button == NoButton then Tween(scale, target, StepSeconds(delta)) else Normal
  }

  /** The target flips once a full period of wall-clock time has passed since the last flip. */
  predicate FlipDue(now: real, lastTime: real) {
    now - lastTime >= FlipPeriod
  }

  /** Flipping sends a slow target back to normal speed and any other target to slow motion. */
  function Flip(target: real): (r: real)
    ensures r == Normal || r == SlowMotion
    ensures r == Normal <==> target < Normal
  {
    if target < Normal then Normal else SlowMotion
  }

  /** On the two values the target ever takes, flipping swaps them. */
  lemma FlipSwaps(target: real)
    requires target == Normal || target == SlowMotion
    ensures Flip(target) != target && Flip(Flip(target)) == target
  {
  }

  /** The scale after `n` easing steps of `dt` seconds toward a fixed target. */
  function Settle(scale: real, target: real, dt: real, n: nat): real
    decreases n
  {
    if n == 0 then scale else Settle(Tween(scale, target, dt), target, dt, n - 1)
  }

  function Pow(q: real, n: nat): real
    decreases n
  {
    if n == 0 then 1.0 else q * Pow(q, n - 1)
  }

  /** After `n` steps the gap to the target is the initial gap times (1 - 3 dt)^n. */
  lemma {:induction false} SettleGap(scale: real, target: real, dt: real, n: nat)
    ensures Settle(scale, target, dt, n) - target == Pow(1.0 - TweenRate * dt, n) * (scale - target)
    decreases n
  {
    if n > 0 {
      var q := 1.0 - TweenRate * dt;
      var next := Tween(scale, target, dt);
      SettleGap(next, target, dt, n - 1);
      PowUnfoldLast(q, n);
      calc {
        Settle(scale, target, dt, n) - target;
        Pow(q, n - 1) * (next - target);
        Pow(q, n - 1) * (q * (scale - target));
        (Pow(q, n - 1) * q) * (scale - target);
      }
    }
  }

  lemma {:induction false} PowUnfoldLast(q: real, n: nat)
    requires n > 0
    ensures Pow(q, n) == Pow(q, n - 1) * q
  {
  }

  /** Bernoulli's inequality, turned around: (1 - x)^n (1 + n x) <= 1 for 0 <= x <= 1. */
  lemma {:induction false} PowBernoulli(x: real, n: nat)
    requires 0.0 <= x <= 1.0
    ensures 0.0 <= Pow(1.0 - x, n)
    ensures Pow(1.0 - x, n) * (1.0 + (n as real) * x) <= 1.0
    decreases n
  {
    if n > 0 {
      var p := Pow(1.0 - x, n - 1);
      var m := (n - 1) as real;
      PowBernoulli(x, n - 1);
      assert Pow(1.0 - x, n) == (1.0 - x) * p;
      assert 0.0 <= (1.0 - x) * p by {
        assert 0.0 <= 1.0 - x;
      }
      assert (1.0 - x) * (1.0 + m * x + x) == (1.0 + m * x) - x * x * (m + 1.0);
      assert p * (x * x * (m + 1.0)) >= 0.0 by {
        assert x * x * (m + 1.0) >= 0.0;
      }
      calc {
        Pow(1.0 - x, n) * (1.0 + (n as real) * x);
        (1.0 - x) * p * (1.0 + m * x + x);
        p * ((1.0 - x) * (1.0 + m * x + x));
        p * ((1.0 + m * x) - x * x * (m + 1.0));
        p * (1.0 + m * x) - p * (x * x * (m + 1.0));
      <=
        p * (1.0 + m * x);
      <=
        1.0;
      }
    }
  }

  function Abs(x: real): real {
    if x < 0.0 then -x else x
  }

  /** Convergence: with 0 < 3 dt <= 1 the gap after `n` steps is at most the initial gap
      divided by 1 + 3 n dt, so it falls below any bound once enough steps have passed. */
  lemma {:induction false} SettleConverges(scale: real, target: real, dt: real, n: nat)
    requires 0.0 < TweenRate * dt <= 1.0
    ensures Abs(Settle(scale, target, dt, n) - target) * (1.0 + (n as real) * (TweenRate * dt))
            <= Abs(scale - target)
  {
    var x := TweenRate * dt;
    SettleGap(scale, target, dt, n);
    PowBernoulli(x, n);
    ShrunkGap(Settle(scale, target, dt, n) - target, Pow(1.0 - x, n), scale - target, 1.0 + (n as real) * x);
  }

  /** A gap scaled by a factor `p >= 0` with `p * f <= 1` is, in size, at most the original
      gap divided by `f`. */
  lemma ShrunkGap(e: real, p: real, d: real, f: real)
    requires e == p * d && p >= 0.0 && p * f <= 1.0
    ensures Abs(e) * f <= Abs(d)
  {
    AbsScale(p, d);
    GapBound(Abs(e), p, Abs(d), f);
  }

  lemma GapBound(e: real, p: real, g: real, f: real)
    requires e == p * g && p * f <= 1.0 && g >= 0.0
    ensures e * f <= g
  {
    assert e * f == (p * f) * g;
    ScaleDown(p * f, g);
  }

  lemma AbsScale(p: real, d: real)
    requires p >= 0.0
    ensures Abs(p * d) == p * Abs(d)
  {
    if d < 0.0 {
      assert p * d <= 0.0;
      assert -(p * d) == p * (-d);
    } else {
      assert p * d >= 0.0;
    }
  }

  lemma ScaleDown(a: real, g: real)
    requires a <= 1.0 && g >= 0.0
    ensures a * g <= g
  {
    assert g - a * g == (1.0 - a) * g;
  }

  /** The number of target flips when the step handler reads the clock at the times
      `nows`, in order, starting from the last flip time `lastTime`. */
  function FlipCount(lastTime: real, nows: seq<real>): nat
    decreases |nows|
  {
    if |nows| == 0 then 0
    else if FlipDue(nows[0], lastTime) then 1 + FlipCount(nows[0], nows[1..])
    else FlipCount(lastTime, nows[1..])
  }

  /** Flip cadence: over a run of clock readings that never go backwards, the target flips at
      most once per full period of elapsed wall-clock time, whatever the time scale. */
  lemma {:induction false} FlipCadence(lastTime: real, nows: seq<real>)
    requires |nows| > 0
    requires lastTime <= nows[0]
    requires forall i :: 0 < i < |nows| ==> nows[i - 1] <= nows[i]
    ensures (FlipCount(lastTime, nows) as real) * FlipPeriod <= nows[|nows| - 1] - lastTime
    decreases |nows|
  {
    var rest := nows[1..];
    if |rest| == 0 {
    } else {
      assert rest[|rest| - 1] == nows[|nows| - 1];
      assert forall i :: 0 < i < |rest| ==> rest[i - 1] <= rest[i] by {
        forall i | 0 < i < |rest| ensures rest[i - 1] <= rest[i] {
          assert rest[i - 1] == nows[i] && rest[i] == nows[i + 1];
        }
      }
      assert nows[0] <= rest[0];
      if FlipDue(nows[0], lastTime) {
        FlipCadence(nows[0], rest);
      } else {
        FlipCadence(lastTime, rest);
      }
    }
  }

  /** The other direction of the cadence: when no two consecutive clock readings are more than
      `gap` ms apart, and the first comes less than a period plus `gap` after the last flip,
      the flips keep pace with the clock: each flip accounts for less than a period plus `gap`
      of elapsed time, and less than a period passes after the last one. */
  lemma FlipCadenceLower(lastTime: real, nows: seq<real>, gap: real)
    requires |nows| > 0
    requires nows[0] - lastTime < FlipPeriod + gap
    requires forall i :: 0 < i < |nows| ==> nows[i] - nows[i - 1] <= gap
    ensures (FlipCount(lastTime, nows) as real) * (FlipPeriod + gap) > nows[|nows| - 1] - lastTime - FlipPeriod
  {
    FlipPeriodsLower(lastTime, nows, gap);
    PeriodsProduct(FlipCount(lastTime, nows), FlipPeriod + gap);
  }

  /** `n` lengths `p` laid end to end. */
  function Periods(n: nat, p: real): real
    decreases n
  {
    if n == 0 then 0.0 else p + Periods(n - 1, p)
  }

  lemma {:induction false} PeriodsProduct(n: nat, p: real)
    ensures Periods(n, p) == (n as real) * p
    decreases n
  {
    if n > 0 {
      PeriodsProduct(n - 1, p);
      assert (n as real) * p == ((n - 1) as real) * p + p;
    }
  }

  /** The lower cadence bound in additive form, proved by induction over the readings. */
  lemma {:induction false} FlipPeriodsLower(lastTime: real, nows: seq<real>, gap: real)
    requires |nows| > 0
    requires nows[0] - lastTime < FlipPeriod + gap
    requires forall i :: 0 < i < |nows| ==> nows[i] - nows[i - 1] <= gap
    ensures Periods(FlipCount(lastTime, nows), FlipPeriod + gap) > nows[|nows| - 1] - lastTime - FlipPeriod
    decreases |nows|
  {
    var rest := nows[1..];
    var last := nows[|nows| - 1];
    if |rest| == 0 {
      if FlipDue(nows[0], lastTime) {
        assert FlipCount(lastTime, nows) == 1;
      } else {
        assert FlipCount(lastTime, nows) == 0;
      }
    } else {
      assert rest[|rest| - 1] == last;
      GapsOfTail(nows, gap);
      if FlipDue(nows[0], lastTime) {
        FlipPeriodsLower(nows[0], rest, gap);
        assert FlipCount(lastTime, nows) == FlipCount(nows[0], rest) + 1;
      } else {
        FlipPeriodsLower(lastTime, rest, gap);
        assert FlipCount(lastTime, nows) == FlipCount(lastTime, rest);
      }
    }
  }

  /** Dropping the first reading keeps the bound on the gaps between readings. */
  lemma GapsOfTail(nows: seq<real>, gap: real)
    requires |nows| > 1
    requires forall i :: 0 < i < |nows| ==> nows[i] - nows[i - 1] <= gap
    ensures nows[1..][0] - nows[0] <= gap
    ensures forall i :: 0 < i < |nows[1..]| ==> nows[1..][i] - nows[1..][i - 1] <= gap
  {
    var rest := nows[1..];
    assert rest[0] == nows[1];
    forall i | 0 < i < |rest| ensures rest[i] - rest[i - 1] <= gap {
      assert rest[i - 1] == nows[i] && rest[i] == nows[i + 1];
    }
  }
}
